=== FILE: README.md ===
# Vehicle parking registry — a Dafny model

This project models the core of a small Flask/SQLite parking application:
- user accounts;
- parking lots with an hourly price;
- slots that are available ('A') or occupied ('O');
- bookings that are opened on the lowest-id available slot and released with a bill;
- the admin operations on lots and slots;
- the overdue count;
- the chat room's append-only message log.

The database is a `Registry.Store`, a record of immutable maps. It holds one
map per table, keyed by AUTOINCREMENT id (users are keyed by their UNIQUE
username), plus the next id of each table. Every request is a pure function
from one store to the next. A request that raises, or that closes the
connection without committing, returns the store unchanged. The clock is a
parameter `now`, in whole seconds.

Modules:
- `Base`: optional values, plus the decimal rendering used by the "Spot N" labels.
- `Tables`: ordered listings and filtered counts over keyed tables, i.e.
  `ORDER BY id` and `COUNT(*) ... WHERE`.
- `Registry`: rows, the store, and its well-formedness.
- `Users`: registration, login, and password change.
- `Lots`: lot creation, editing, deletion and resizing, slot insertion and deletion, and the admin listings.
- `Bookings`: booking, release and billing, per-user history, and the overdue count.
- `Occupancy`: the invariant linking slot status to bookings. It has three
  clauses:
  - every open booking holds an existing slot;
  - no slot is held by two open bookings;
  - a slot is occupied iff an open booking holds it.

  Together these say a slot is occupied iff exactly one open booking holds it.
  `book_slot` keeps the invariant, and so does releasing an open booking.
  Releasing a closed booking breaks the third clause: the slot is marked
  available under a booking that is still open. Deleting an occupied slot
  breaks the first clause: its open booking is left on a slot that no longer
  exists, and `release_booking` then aborts on it every time
  (vehicle_parking_final/models/booking_model.py:51-56).
- `Chat`: the message log, the recent-messages window, and the online list.

Points where the code's own behaviour is followed:
- Lot deletion refuses a lot with an occupied slot
  (vehicle_parking_final/app.py:190-195), but `delete_slot` deletes any slot
  (see Findings).
- The `slots` table in the schema has no `status` column, and `add_slot` sets
  none. Such a slot gets the status `Unset` (NULL). It is neither available
  nor occupied, so it is never booked and never removed by a shrink.
- `app.py` and `vehicle_parking_final/app.py` contain the same lot, slot and
  booking routes, line for line. The table cites the latter.

## Model

| member | source | states |
|---|---|---|
| Registry.Empty | vehicle_parking_final/models/user_model.py:3-14 | freshly created tables satisfy the schema invariants; this covers all four tables, including the slot and lot schemas (vehicle_parking_final/models/slot_model.py:8-25) and the booking schema (vehicle_parking_final/models/booking_model.py:4-19) |
| Registry.SlotCountIsCard | vehicle_parking_final/app.py:243-244 | the `COUNT(*) ... WHERE lot_id = ?` the routes compute is the number of slots whose lot is that lot |
| Lots.SpotLabelInjective | vehicle_parking_final/app.py:173-174 | the labels "Spot N" of distinct numbers differ |
| Users.AddUser | vehicle_parking_final/models/user_model.py:17-27 | registration succeeds iff the username is new; on failure nothing changes; on success exactly that user is added, as a non-admin with the given password, every other row is unchanged, the new user's id is the user counter's value, and only the user counter advances, by one |
| Users.CheckUser | vehicle_parking_final/models/user_model.py:29-35 | login returns a row iff a stored user matches both the username and the password; the row carries that user's id and admin flag |
| Users.RegisterThenLogin | vehicle_parking_final/models/user_model.py:17-35 | a newly registered user can log in with the registered password, as a non-admin |
| Users.DuplicateRegistrationKeepsPassword | vehicle_parking_final/models/user_model.py:17-27 | registering a taken name fails and does not change what the existing user logs in with |
| Users.UpdatePassword | app.py:422-428 | a missing or empty new password changes nothing; otherwise only the session user's password changes |
| Users.PasswordChangeTakesEffect | app.py:424-428 | after a change, the new password logs in and a different old one no longer does |
| Users.UpdatePasswordKeepsWf | app.py:424-428 | a password change keeps the schema invariants |
| Lots.AddParkingLot | vehicle_parking_final/models/slot_model.py:31-36 | a new name adds one lot at the default price of 20, whose id is the lot counter's value, and advances only the lot counter; a taken name raises and nothing changes |
| Lots.AddSlot | vehicle_parking_final/models/slot_model.py:48-53 | adds exactly one slot with no status, whose id is the slot counter's value, advancing only the slot counter; no lot existence check |
| Lots.CreateLot | vehicle_parking_final/app.py:167-175 | a taken name creates nothing; otherwise one lot plus `num_spots` available slots (none if negative) with fresh ids labelled "Spot 1".."Spot n"; existing rows unchanged; the new lot's id is the lot counter's value, which advances by one, and the slot counter advances by n |
| Lots.CreateLotSlotCount | vehicle_parking_final/app.py:170-174 | creation raises the new lot's slot count by exactly max(0, num_spots) |
| Lots.CreateLotLabelsDistinct | vehicle_parking_final/app.py:173-174 | the slots a lot is created with carry pairwise distinct "Spot N" labels |
| Lots.DeleteLot | vehicle_parking_final/app.py:188-200 | refused, with nothing changed, iff some slot of the lot is occupied; otherwise the lot and all its slots are removed and nothing else; no counter moves |
| Lots.EditLot | vehicle_parking_final/app.py:220-224 | sets only that lot's name and price, moving no counter; an unknown id changes nothing; a name held by another lot raises and changes nothing |
| Lots.ShrinkVictims | vehicle_parking_final/app.py:251-252 | picks min(excess, available) available slots of the lot, in decreasing id order, and every available slot it leaves has a lower id than every one it picks |
| Lots.EditLotSpots | vehicle_parking_final/app.py:240-255 | growing appends available slots labelled from current+1; shrinking deletes only the chosen available slots; other lots' slots and non-available slots are untouched; an equal count is a no-op; only the slot counter moves, by the number of slots added |
| Lots.GrowCount | vehicle_parking_final/app.py:245-248 | growing yields exactly the requested number of slots |
| Lots.EditLotSpotsCount | vehicle_parking_final/app.py:243-254 | after a resize the lot has max(requested, slots that are not available) slots |
| Lots.DeleteSlot | vehicle_parking_final/models/slot_model.py:70-75 | removes that slot and nothing else, whatever its status, moving no counter, so its id is never reused; an unknown id is a no-op |
| Lots.AllSlots | vehicle_parking_final/models/slot_model.py:56-67 | lists exactly the slots whose lot exists, with that lot's name, in decreasing slot id |
| Lots.LotSlotCounts | vehicle_parking_final/models/slot_model.py:77-88 | one row per lot, in lot id order, and each count is the number of slots of that lot (0 for none) |
| Lots.LotSlotSummary | vehicle_parking_final/models/slot_model.py:90-101 | agrees row for row with the lot slot counts |
| Bookings.AddBooking | vehicle_parking_final/models/booking_model.py:21-31 | adds one open booking starting now, whose id is the booking counter's value; its slot, if it exists, becomes occupied; only the booking counter advances, by one; nothing else changes |
| Bookings.FirstAvailable | vehicle_parking_final/app.py:275-276 | absent iff the lot has no available slot; otherwise the lowest-id available slot of that lot |
| Bookings.Book | vehicle_parking_final/app.py:271-285 | with no available slot nothing changes; otherwise the booking is made on the first available slot |
| Bookings.BookOccupiesLowestAvailable | vehicle_parking_final/app.py:274-283 | booking occupies the lowest-id available slot of the lot, adds exactly one open booking for it, and leaves every other slot unchanged |
| Bookings.BilledHours | vehicle_parking_final/models/booking_model.py:72 | at least one hour; from one hour on, the whole hours elapsed, rounded down |
| Bookings.BilledHoursExamples | vehicle_parking_final/models/booking_model.py:72 | 90 minutes bill 1 hour, 2 hours bill 2, a negative duration bills 1 |
| Bookings.Release | vehicle_parking_final/models/booking_model.py:33-79 | a missing booking, slot or lot aborts with nothing committed; otherwise the booking gets the end time and cost = price × billed hours, and its slot becomes available; no counter moves |
| Bookings.ReleaseStampsOnlyThatBooking | vehicle_parking_final/models/booking_model.py:69-76 | a release closes that booking only and frees its slot only, and bills at least the hourly price |
| Bookings.NinetyMinutesCostOneHour | vehicle_parking_final/models/booking_model.py:68-73 | a 90-minute stay costs one hour's price |
| Bookings.ReleasedSlotCanBeRebooked | vehicle_parking_final/models/booking_model.py:47-48 | after a release, booking in that lot succeeds |
| Bookings.UserBookings | vehicle_parking_final/models/booking_model.py:81-92 | exactly the user's bookings, newest id first, with their columns |
| Bookings.OverdueCount | app.py:512-517 | the number of open bookings that started more than 24 hours before now |
| Occupancy.ConsistentMeansOneOpenBooking | vehicle_parking_final/models/booking_model.py:29-48 | under the invariant a slot is occupied iff exactly one open booking holds it, and holds none otherwise |
| Occupancy.EmptyIsConsistent | vehicle_parking_final/models/booking_model.py:4-19 | empty tables satisfy the invariant |
| Occupancy.BookKeepsConsistent | vehicle_parking_final/app.py:275-283 | booking keeps the invariant |
| Occupancy.ReleaseOpenKeepsConsistent | vehicle_parking_final/models/booking_model.py:33-79 | releasing an open booking keeps the invariant |
| Occupancy.ReleaseClosedBreaksConsistent | vehicle_parking_final/models/booking_model.py:38-48 | releasing an already closed booking whose slot has been rebooked succeeds and breaks the invariant |
| Occupancy.RebookedStore | vehicle_parking_final/models/booking_model.py:38-48 | a consistent store in which booking 1 is closed and its slot is held by open booking 2 |
| Occupancy.DoubleReleaseExample | vehicle_parking_final/models/booking_model.py:38-48 | releasing booking 1 there bills 20 again and marks the slot available under open booking 2 |
| Occupancy.ReleaseOpen | vehicle_parking_final/models/booking_model.py:38-45 | the corrected release refuses a closed booking and changes nothing; otherwise it behaves as the original; no counter moves |
| Occupancy.ReleaseOpenPreservesConsistent | vehicle_parking_final/models/booking_model.py:33-79 | the corrected release keeps the invariant for every booking id |
| Occupancy.DeleteOccupiedSlotBreaksConsistent | vehicle_parking_final/models/slot_model.py:70-75 | deleting an occupied slot leaves an open booking on a missing slot |
| Occupancy.DeleteOccupiedSlotExample | vehicle_parking_final/models/slot_model.py:70-75 | deleting slot 1 of the rebooked store strands open booking 2 |
| Occupancy.DeleteFreeSlot | vehicle_parking_final/models/slot_model.py:70-75 | the corrected deletion is refused, with nothing changed, iff the slot is occupied |
| Occupancy.DeleteFreeSlotPreservesConsistent | vehicle_parking_final/models/slot_model.py:70-75 | the corrected deletion keeps the invariant |
| Occupancy.DeleteLotKeepsConsistent | vehicle_parking_final/app.py:190-199 | guarded lot deletion keeps the invariant |
| Occupancy.CreateLotKeepsConsistent | vehicle_parking_final/app.py:171-174 | lot creation keeps the invariant |
| Occupancy.AddSlotKeepsConsistent | vehicle_parking_final/models/slot_model.py:48-53 | adding a slot keeps the invariant |
| Occupancy.EditLotSpotsKeepsConsistent | vehicle_parking_final/app.py:245-254 | resizing keeps the invariant |
| Occupancy.EditLotKeepsConsistent | vehicle_parking_final/app.py:220-224 | renaming or repricing a lot keeps the invariant |
| Occupancy.AddUserKeepsConsistent | vehicle_parking_final/models/user_model.py:17-27 | registration keeps the invariant |
| Occupancy.UpdatePasswordKeepsConsistent | app.py:422-428 | a password change keeps the invariant |
| Chat.EmptyLog | models/chat_model.py:9-17 | the new table is empty and well formed |
| Chat.AddMessage | models/chat_model.py:22-34 | appends exactly one message stamped now, keeps the old log as a prefix, and returns an id above every existing id |
| Chat.AddMessageAsUser | models/chat_model.py:22-34 | posting without an admin flag stores a non-admin message (`is_admin=0`), appended after the old log |
| Chat.AddMessageKeepsTimeOrdered | models/chat_model.py:14 | with a clock that does not go back, the log stays ordered by timestamp |
| Chat.Shown | models/chat_model.py:44 | `LIMIT` passes min(limit, n) rows, and all rows for a negative limit |
| Chat.RecentMessages | models/chat_model.py:36-49 | returns min(limit, n) rows, all of them for a negative limit |
| Chat.DefaultRecentMessages | models/chat_model.py:36-49 | with the default `limit=50`: at most 50 rows, and in a time-ordered log exactly the last 50 messages, oldest first |
| Chat.RecentMessagesAreTheTail | models/chat_model.py:40-49 | in a time-ordered log the rows are the last messages of the log, oldest first |
| Chat.RecentMessagesAreNewest | models/chat_model.py:40-49 | in a time-ordered log the rows are in timestamp order, and no skipped message is newer than a shown one |
| Chat.PostedMessageShownLast | models/chat_model.py:22-49 | after posting with a clock that has not gone back, the window ends with the new message; with no limit it is the old window plus that message |
| Chat.OnlineUsers | models/chat_model.py:51-64 | lists (username, is_admin) pairs sorted by name; a pair is listed iff someone posted as that pair within the last hour |
| Chat.OnlineUsersDistinct | models/chat_model.py:56 | no pair is listed twice |
| Chat.PosterIsOnline | models/chat_model.py:55-59 | whoever just posted is listed as online |

## Left out

- Flask routing, templates, flash messages, redirects and the session. The
  session user is a parameter.
- Authorization:
  - any logged-in user may release any booking id;
  - admin routes check only `session['is_admin']`.
  The model releases whatever id it is given.
- SocketIO broadcast, join and leave events, and the browser script. Only the
  database effect of a chat message is modelled.
- SQLite mechanics: connections, commit and rollback are reduced to "changed"
  or "unchanged". Failed inserts leave the AUTOINCREMENT counters where they were.
- Concurrency: two requests that book the same slot at once. Each request is
  one atomic transition.
- Dashboards, home page statistics, the revenue sums, `view_users`,
  `all_bookings`, the `/check` route and `seed_admin`. They are read-only
  reports outside the modelled core, or start-up seeding.
- Bookings.Release: times are whole seconds. The model does not cover the
  `strftime`/`strptime` text round trip, local time, or prices stored as REAL
  or as text. The price is an integer.
- Bookings.OverdueCount: compares `now` and the start time on one clock. The
  SQL compares UTC `datetime('now')` with a start time recorded in local time.
- Lots.CreateLot: a `num_spots` or `new_spots` that `int()` cannot parse
  raises before anything changes. The model takes an integer.
- Lots.EditLotSpots: resizing can repeat a "Spot N" label when occupied
  slots survive a shrink. Labels are modelled, but their uniqueness is not claimed.
- Chat.RecentMessages: the model orders messages by insertion, which stands in
  for `ORDER BY timestamp DESC` only while the clock does not go back. If a
  message is stamped earlier than one already stored, the SQL would show it
  earlier than the model does. The SQL also leaves the order of equal
  timestamps open, and the model takes insertion order there too.
  `RecentMessagesAreNewest` states what holds for any tie order in a
  time-ordered log.
- Chat.OnlineUsers: `ORDER BY username` leaves open the order of one name's
  admin and non-admin rows. The model puts the non-admin row first.
- Chat.AddMessage: `timestamp` is `CURRENT_TIMESTAMP` in UTC with one-second
  resolution. The model stamps it with the `now` parameter.
- Lots.LotSlotCounts: `GROUP BY parking_lots.id` has no ORDER BY, so SQLite
  does not promise an order. The model lists lots in id order. The same holds
  for `Lots.LotSlotSummary`.
- Foreign keys: they are not enforced. `add_slot` accepts any lot id, and
  bookings may name missing slots. The model allows both.

## Findings

| source | as written | input that shows it | evidently intended | confidence | as-written member | corrected member |
|---|---|---|---|---|---|---|
| vehicle_parking_final/models/booking_model.py:38-48 | `release_booking` does not check that the booking is still open. It marks the slot available and re-bills the booking. | Booking 1 on slot 1 is released at 3600 s. Slot 1 is rebooked as booking 2 at 4000 s. Booking 1 is released again at 5000 s. Slot 1 becomes available while booking 2 is still open. | a closed booking is refused and nothing changes | high; not executed | Bookings.Release, Occupancy.ReleaseClosedBreaksConsistent, Occupancy.DoubleReleaseExample | Occupancy.ReleaseOpen, Occupancy.ReleaseOpenPreservesConsistent |
| vehicle_parking_final/models/slot_model.py:70-75 | `delete_slot` deletes the slot whatever its status | Slot 1 is held by open booking 2. Deleting slot 1 leaves booking 2 open on a slot that no longer exists. | an occupied slot is refused, as lot deletion does at vehicle_parking_final/app.py:190-195 | medium; not executed | Lots.DeleteSlot, Occupancy.DeleteOccupiedSlotBreaksConsistent, Occupancy.DeleteOccupiedSlotExample | Occupancy.DeleteFreeSlot, Occupancy.DeleteFreeSlotPreservesConsistent |

=== FILE: Base.dfy ===
/** Shared vocabulary: an optional value (a nullable column) and the decimal
    rendering Python uses when it formats an int into a string. */
module Base {

  /** A value that may be absent, as a nullable column or `fetchone()`. */
  datatype Option<+T> = None | Some(value: T)

  function DigitChar(d: nat): (c: char)
    requires d < 10
    ensures '0' <= c <= '9'
  {
    (d + '0' as int) as char
  }

  function DigitValue(c: char): (d: nat)
    requires '0' <= c <= '9'
    ensures d < 10
  {
    c as int - '0' as int
  }

  predicate IsDigits(s: string)
  {
    forall i :: 0 <= i < |s| ==> '0' <= s[i] <= '9'
  }

  /** The decimal form of `n`, most significant digit first, with no leading zero. */
  function Decimal(n: nat): (s: string)
    ensures 0 < |s| && IsDigits(s)
    ensures |s| > 1 ==> s[0] != '0'
    decreases n
  {
    if n < 10 then [DigitChar(n)] else Decimal(n / 10) + [DigitChar(n % 10)]
  }

  /** Reads a string of digits back as a number. */
  function ParseDecimal(s: string): nat
    requires IsDigits(s)
    decreases |s|
  {
    if |s| == 0 then 0 else ParseDecimal(s[..|s| - 1]) * 10 + DigitValue(s[|s| - 1])
  }

  /** Parsing undoes formatting. */
  lemma {:induction false} ParseDecimalInverts(n: nat)
    ensures ParseDecimal(Decimal(n)) == n
    decreases n
  {
    if n >= 10 {
      var s := Decimal(n);
      assert s[..|s| - 1] == Decimal(n / 10);
      ParseDecimalInverts(n / 10);
    }
  }

  /** Distinct numbers are formatted differently. */
  lemma DecimalInjective(m: nat, n: nat)
    ensures Decimal(m) == Decimal(n) ==> m == n
  {
    ParseDecimalInverts(m);
    ParseDecimalInverts(n);
  }
}

=== FILE: Bookings.dfy ===
/** The booking lifecycle: `add_booking`, the `book_slot` route that picks a
    slot for it, `release_booking` with its billing rule, `get_user_bookings`,
    and the overdue-booking count of the admin notifications. */
module Bookings {
  import opened Base
  import opened Tables
  import opened Registry

  /** Seconds in one billed hour. */
  const Hour: int := 3600

  /** A booking still open this long after its start is overdue (24 hours). */
  const OverdueAfter: int := 24 * Hour

  /** `add_booking`: inserts a booking of `slotId` for `user` starting `now`,
      with no end time and no cost, and marks the slot occupied (an UPDATE that
      touches nothing when no slot has that id). */
  function AddBooking(s: Store, user: string, slotId: Id, vehicle: string, now: int): (r: (Store, Id))
    requires Wf(s)
    ensures Wf(r.0)
    ensures r.1 !in s.bookings && r.0.bookings.Keys == s.bookings.Keys + {r.1}
    ensures r.0.bookings[r.1] == Booking(user, slotId, vehicle, now, None, None)
    ensures forall id :: id in s.bookings ==> r.0.bookings[id] == s.bookings[id]
    ensures r.0.slots.Keys == s.slots.Keys
    ensures slotId in s.slots ==> r.0.slots[slotId] == s.slots[slotId].(status := Occupied)
    ensures forall id :: id in s.slots && id != slotId ==> r.0.slots[id] == s.slots[id]
    ensures r.0.users == s.users && r.0.lots == s.lots
    ensures r.1 == s.nextBooking && r.0.nextBooking == s.nextBooking + 1
    ensures r.0.nextUser == s.nextUser && r.0.nextSlot == s.nextSlot && r.0.nextLot == s.nextLot
  {
    var id := s.nextBooking;
    var slots' := if slotId in s.slots then s.slots[slotId := s.slots[slotId].(status := Occupied)] else s.slots;
    (s.(bookings := s.bookings[id := Booking(user, slotId, vehicle, now, None, None)],
        nextBooking := id + 1,
        slots := slots'), id)
  }

  /** The slot `book_slot` selects: the lowest-id slot of `lotId` whose status is
      'A' (ORDER BY id ASC LIMIT 1), if there is one. */
  function FirstAvailable(s: Store, lotId: Id): (r: Option<Id>)
    requires Wf(s)
    ensures r.None? <==> AvailableSlotsOf(s, lotId) == {}
    ensures r.Some? ==> r.value in AvailableSlotsOf(s, lotId)
    ensures r.Some? ==> forall id :: id in AvailableSlotsOf(s, lotId) ==> r.value <= id
  {
    var ids := Ascending(s.slots, AvailableIn(lotId), s.nextSlot);
    if |ids| == 0 then
      assert forall id :: id in AvailableSlotsOf(s, lotId) ==> id in ids;
      None
    else
      assert ids[0] in ids;
      assert forall id :: id in ids ==> exists k :: 0 <= k < |ids| && ids[k] == id;
      assert ids[0] in AvailableSlotsOf(s, lotId);
      Some(ids[0])
  }

  /** `book_slot` POST: no available slot in the lot means no booking and no
      change; otherwise the selected slot is booked for the session user. */
  function Book(s: Store, user: string, lotId: Id, vehicle: string, now: int): (r: (Store, Option<Id>))
    requires Wf(s)
    ensures Wf(r.0)
    ensures r.1.None? <==> AvailableSlotsOf(s, lotId) == {}
    ensures r.1.None? ==> r.0 == s
    ensures r.1.Some? ==> r.1 == FirstAvailable(s, lotId)
    ensures r.1.Some? ==> r.0 == AddBooking(s, user, r.1.value, vehicle, now).0
  {
    match FirstAvailable(s, lotId)
    case None => (s, None)
    case Some(slotId) => (AddBooking(s, user, slotId, vehicle, now).0, Some(slotId))
  }

  /** Booking occupies the lowest-id available slot of the lot, adds one open
      booking on it, and changes no other slot. */
  lemma BookOccupiesLowestAvailable(s: Store, user: string, lotId: Id, vehicle: string, now: int)
    requires Wf(s) && AvailableSlotsOf(s, lotId) != {}
    ensures var (r, slotId) := Book(s, user, lotId, vehicle, now);
      && slotId.Some?
      && slotId.value in s.slots && s.slots[slotId.value].lotId == lotId
      && s.slots[slotId.value].status == Available
      && (forall id :: id in AvailableSlotsOf(s, lotId) ==> slotId.value <= id)
      && r.slots[slotId.value].status == Occupied
      && (forall id :: id in s.slots && id != slotId.value ==> r.slots[id] == s.slots[id])
      && |r.bookings.Keys| == |s.bookings.Keys| + 1
      && exists b :: b in r.bookings && b !in s.bookings
           && r.bookings[b] == Booking(user, slotId.value, vehicle, now, None, None)
  {
  }

  /** Hours billed for a stay of `elapsed` seconds: whole hours, rounded down,
      but never less than one. */
  function BilledHours(elapsed: int): (h: int)
    ensures h >= 1
    ensures elapsed >= Hour ==> h * Hour <= elapsed < (h + 1) * Hour
    ensures elapsed < 2 * Hour ==> h == 1
  {
    var whole := elapsed / Hour;
    if whole < 1 then 1 else whole
  }

  /** Ninety minutes bill one hour; two hours bill two. */
  lemma BilledHoursExamples()
    ensures BilledHours(90 * 60) == 1
    ensures BilledHours(2 * Hour) == 2
    ensures BilledHours(-5) == 1
  {
  }

  /** What `release_booking` reports. The three aborts close the connection
      without a commit. */
  datatype ReleaseOutcome = NoSuchBooking | NoSuchSlot | NoSuchLot | Released(cost: int)

  /** `release_booking`: looks up the booking, its slot and the slot's lot; if
      any is missing nothing is committed, so even the slot-status update already
      issued is lost. Otherwise the slot becomes available and the booking gets
      end time `now` and cost price x billed hours. Whether the booking is still
      open is not checked. */
  function Release(s: Store, bookingId: Id, now: int): (r: (Store, ReleaseOutcome))
    requires Wf(s)
    ensures Wf(r.0)
    ensures r.1 == NoSuchBooking <==> bookingId !in s.bookings
    ensures r.1 == NoSuchSlot <==> bookingId in s.bookings && s.bookings[bookingId].slotId !in s.slots
    ensures r.1 == NoSuchLot <==> (bookingId in s.bookings && s.bookings[bookingId].slotId in s.slots
      && s.slots[s.bookings[bookingId].slotId].lotId !in s.lots)
    ensures !r.1.Released? ==> r.0 == s
    ensures r.1.Released? ==>
      var b := s.bookings[bookingId];
      var slot := s.slots[b.slotId];
      && r.1.cost == s.lots[slot.lotId].price * BilledHours(now - b.start)
      && r.0.bookings == s.bookings[bookingId := b.(end := Some(now), cost := Some(r.1.cost))]
      && r.0.slots == s.slots[b.slotId := slot.(status := Available)]
      && r.0.users == s.users && r.0.lots == s.lots
    ensures SameCounters(s, r.0)
  {
    if bookingId !in s.bookings then (s, NoSuchBooking)
    else
      var b := s.bookings[bookingId];
      if b.slotId !in s.slots then (s, NoSuchSlot)
      else
        var slot := s.slots[b.slotId];
        if slot.lotId !in s.lots then (s, NoSuchLot)
        else
          var cost := s.lots[slot.lotId].price * BilledHours(now - b.start);
          (s.(slots := s.slots[b.slotId := slot.(status := Available)],
              bookings := s.bookings[bookingId := b.(end := Some(now), cost := Some(cost))]), Released(cost))
  }

  /** A successful release closes that booking only, frees its slot only, and
      bills at least one hour's price. */
  lemma ReleaseStampsOnlyThatBooking(s: Store, bookingId: Id, now: int)
    requires Wf(s)
    requires Release(s, bookingId, now).1.Released?
    ensures var (r, outcome) := Release(s, bookingId, now);
      var b := s.bookings[bookingId];
      && !r.bookings[bookingId].Open() && r.bookings[bookingId].end == Some(now)
      && r.bookings[bookingId].cost == Some(outcome.cost)
      && r.bookings[bookingId].slotId == b.slotId && r.bookings[bookingId].start == b.start
      && r.slots[b.slotId].status == Available
      && (forall id :: id in s.bookings && id != bookingId ==> r.bookings[id] == s.bookings[id])
      && (forall id :: id in s.slots && id != b.slotId ==> r.slots[id] == s.slots[id])
      && (s.lots[s.slots[b.slotId].lotId].price >= 0 ==> outcome.cost >= s.lots[s.slots[b.slotId].lotId].price)
  {
  }

  /** A booking released 90 minutes after it started costs one hour's price. */
  lemma NinetyMinutesCostOneHour(s: Store, bookingId: Id)
    requires Wf(s) && bookingId in s.bookings
    requires s.bookings[bookingId].slotId in s.slots
    requires s.slots[s.bookings[bookingId].slotId].lotId in s.lots
    ensures var b := s.bookings[bookingId];
      Release(s, bookingId, b.start + 90 * 60).1 == Released(s.lots[s.slots[b.slotId].lotId].price)
  {
  }

  /** After a booking is released its slot can be booked again: booking in that
      lot succeeds. */
  lemma ReleasedSlotCanBeRebooked(s: Store, bookingId: Id, now: int, user: string, vehicle: string)
    requires Wf(s)
    requires Release(s, bookingId, now).1.Released?
    ensures var r := Release(s, bookingId, now).0;
      var lotId := s.slots[s.bookings[bookingId].slotId].lotId;
      Book(r, user, lotId, vehicle, now).1.Some?
  {
    var r := Release(s, bookingId, now).0;
    var slotId := s.bookings[bookingId].slotId;
    assert slotId in AvailableSlotsOf(r, s.slots[slotId].lotId);
  }

  /** A row of `get_user_bookings`: id, slot, vehicle, start, end, cost. */
  datatype BookingRow = BookingRow(id: Id, slotId: Id, vehicle: string, start: int,
                                   end: Option<int>, cost: Option<int>)

  /** WHERE user_email = ? */
  function ByUser(user: string): Booking -> bool
  {
    (b: Booking) => b.user == user
  }

  /** `get_user_bookings`: exactly the user's bookings, newest (highest id) first. */
  function UserBookings(s: Store, user: string): (rows: seq<BookingRow>)
    requires Wf(s)
    ensures forall i, j :: 0 <= i < j < |rows| ==> rows[i].id > rows[j].id
    ensures forall i :: 0 <= i < |rows| ==>
      var id := rows[i].id;
      && id in s.bookings && s.bookings[id].user == user
      && var b := s.bookings[id];
         rows[i] == BookingRow(id, b.slotId, b.vehicle, b.start, b.end, b.cost)
    ensures forall id :: id in s.bookings && s.bookings[id].user == user ==>
      exists i :: 0 <= i < |rows| && rows[i].id == id
  {
    var ids := Descending(s.bookings, ByUser(user), s.nextBooking);
    var rows := seq(|ids|, i requires 0 <= i < |ids| =>
      var b := s.bookings[ids[i]];
      BookingRow(ids[i], b.slotId, b.vehicle, b.start, b.end, b.cost));
    assert forall id :: id in ids ==> exists i :: 0 <= i < |ids| && ids[i] == id && rows[i].id == id;
    rows
  }

  /** Open and started more than 24 hours before `now`. */
  function OverdueAt(now: int): Booking -> bool
  {
    (b: Booking) => b.Open() && now > b.start + OverdueAfter
  }

  /** The admin notification's overdue count: the number of open bookings that
      started more than 24 hours before `now`. */
  function OverdueCount(s: Store, now: int): (n: nat)
    requires Wf(s)
    ensures n == |set id | id in s.bookings && s.bookings[id].Open() && now > s.bookings[id].start + OverdueAfter|
  {
    CountIsCard(s.bookings, OverdueAt(now), s.nextBooking);
    assert Where(s.bookings, OverdueAt(now))
      == set id | id in s.bookings && s.bookings[id].Open() && now > s.bookings[id].start + OverdueAfter;
    |Ascending(s.bookings, OverdueAt(now), s.nextBooking)|
  }
}

=== FILE: Chat.dfy ===
/** The chat room's append-only log (`chat_messages`): posting a message, the
    recent-messages window shown oldest-first, and the list of users who
    posted within the last hour. Timestamps are whole seconds; the clock is a
    parameter. */
module Chat {
  /** A row of `chat_messages`. */
  datatype Message = Message(id: nat, username: string, text: string, timestamp: int, isAdmin: bool)

  /** The table and its AUTOINCREMENT counter; `messages` is in insertion order. */
  datatype ChatLog = ChatLog(messages: seq<Message>, nextId: nat)

  /** What `get_recent_messages` selects: (username, message, timestamp, is_admin). */
  datatype ChatRow = ChatRow(username: string, text: string, timestamp: int, isAdmin: bool)

  /** An entry of `get_online_users`: (username, is_admin). */
  datatype Presence = Presence(username: string, isAdmin: bool)

  /** `get_recent_messages(limit=50)`. */
  const DefaultLimit: int := 50

  /** `datetime('now', '-1 hour')`. */
  const OnlineWindow: int := 3600

  function EmptyLog(): (log: ChatLog)
    ensures Wf(log) && |log.messages| == 0
  {
    ChatLog([], 1)
  }

  /** Ids are handed out in increasing order, starting at 1, below the counter. */
  predicate Wf(log: ChatLog)
  {
    && 1 <= log.nextId
    && (forall i :: 0 <= i < |log.messages| ==> 1 <= log.messages[i].id < log.nextId)
    && (forall i, j :: 0 <= i < j < |log.messages| ==> log.messages[i].id < log.messages[j].id)
  }

  /** Messages were stamped by a clock that never went backwards. */
  predicate TimeOrdered(msgs: seq<Message>)
  {
    forall i, j :: 0 <= i < j < |msgs| ==> msgs[i].timestamp <= msgs[j].timestamp
  }

  /** `add_message`: inserts one row stamped `now` and returns its id. */
  function AddMessage(log: ChatLog, username: string, text: string, isAdmin: bool, now: int): (r: (ChatLog, nat))
    requires Wf(log)
    ensures Wf(r.0)
    ensures |r.0.messages| == |log.messages| + 1
    ensures r.0.messages[..|log.messages|] == log.messages
    ensures r.0.messages[|log.messages|] == Message(r.1, username, text, now, isAdmin)
    ensures forall i :: 0 <= i < |log.messages| ==> log.messages[i].id < r.1
  {
    var id := log.nextId;
    (ChatLog(log.messages + [Message(id, username, text, now, isAdmin)], id + 1), id)
  }

  /** `add_message(username, message)` with `is_admin` left at its default 0:
      the stored message is a non-admin one. */
  function AddMessageAsUser(log: ChatLog, username: string, text: string, now: int): (r: (ChatLog, nat))
    requires Wf(log)
    ensures Wf(r.0)
    ensures |r.0.messages| == |log.messages| + 1 && r.0.messages[..|log.messages|] == log.messages
    ensures r.0.messages[|log.messages|] == Message(r.1, username, text, now, false)
  {
    AddMessage(log, username, text, false, now)
  }

  /** Posting with a clock that has not gone backwards keeps the log time-ordered. */
  lemma AddMessageKeepsTimeOrdered(log: ChatLog, username: string, text: string, isAdmin: bool, now: int)
    requires Wf(log) && TimeOrdered(log.messages)
    requires forall i :: 0 <= i < |log.messages| ==> log.messages[i].timestamp <= now
    ensures TimeOrdered(AddMessage(log, username, text, isAdmin, now).0.messages)
  {
  }

  function Row(m: Message): ChatRow
  {
    ChatRow(m.username, m.text, m.timestamp, m.isAdmin)
  }

  function Reverse<T>(xs: seq<T>): (r: seq<T>)
    ensures |r| == |xs|
    ensures forall i :: 0 <= i < |xs| ==> r[i] == xs[|xs| - 1 - i]
  {
    if |xs| == 0 then [] else Reverse(xs[1..]) + [xs[0]]
  }

  /** How many rows `LIMIT limit` lets through out of `n`; SQLite reads a
      negative limit as no limit. */
  function Shown(n: nat, limit: int): (k: nat)
    ensures k <= n
    ensures limit < 0 ==> k == n
    ensures 0 <= limit ==> k == if limit < n then limit else n
  {
    if limit < 0 || n <= limit then n else limit
  }

  /** `get_recent_messages`: the rows newest first, cut at `limit`, then
      reversed. The newest-first order is the insertion order reversed; the
      SQL leaves the order of equal timestamps open, see
      `RecentMessagesAreNewest` for what holds whatever that order. */
  function RecentMessages(log: ChatLog, limit: int): (rows: seq<ChatRow>)
    ensures |rows| == Shown(|log.messages|, limit)
  {
    var newestFirst := Reverse(seq(|log.messages|, i requires 0 <= i < |log.messages| => Row(log.messages[i])));
    Reverse(newestFirst[..Shown(|log.messages|, limit)])
  }

  /** In a time-ordered log, the rows are the last messages of the log, in
      the order they were posted. */
  lemma RecentMessagesAreTheTail(log: ChatLog, limit: int)
    requires TimeOrdered(log.messages)
    ensures var rows := RecentMessages(log, limit);
      var skipped := |log.messages| - |rows|;
      forall i :: 0 <= i < |rows| ==> rows[i] == Row(log.messages[skipped + i])
  {
  }

  /** In a time-ordered log the rows are exactly what `ORDER BY timestamp DESC
      LIMIT` may return: sorted by time once reversed, and no skipped message is
      newer than any shown one. */
  lemma RecentMessagesAreNewest(log: ChatLog, limit: int)
    requires TimeOrdered(log.messages)
    ensures var rows := RecentMessages(log, limit);
      var skipped := |log.messages| - |rows|;
      && (forall i, j :: 0 <= i < j < |rows| ==> rows[i].timestamp <= rows[j].timestamp)
      && (forall m, i :: 0 <= m < skipped && 0 <= i < |rows| ==> log.messages[m].timestamp <= rows[i].timestamp)
  {
  }

  /** After posting with a clock that has not gone backwards, the chat page
      (any non-zero limit) ends with the new message; with no limit it shows
      the old rows followed by the new one. */
  lemma PostedMessageShownLast(log: ChatLog, username: string, text: string, isAdmin: bool,
                               now: int, limit: int)
    requires Wf(log) && limit != 0
    requires TimeOrdered(log.messages)
    requires forall i :: 0 <= i < |log.messages| ==> log.messages[i].timestamp <= now
    ensures var rows := RecentMessages(AddMessage(log, username, text, isAdmin, now).0, limit);
      && |rows| > 0
      && rows[|rows| - 1] == ChatRow(username, text, now, isAdmin)
    ensures limit < 0 ==>
      RecentMessages(AddMessage(log, username, text, isAdmin, now).0, limit)
        == RecentMessages(log, limit) + [ChatRow(username, text, now, isAdmin)]
  {
    var log' := AddMessage(log, username, text, isAdmin, now).0;
    var n := |log.messages|;
    AddMessageKeepsTimeOrdered(log, username, text, isAdmin, now);
    RecentMessagesAreTheTail(log', limit);
    RecentMessagesAreTheTail(log, limit);
    var rows := RecentMessages(log', limit);
    assert rows[|rows| - 1] == Row(log'.messages[n]);
    if limit < 0 {
      var before := RecentMessages(log, limit);
      forall i | 0 <= i < n ensures rows[i] == before[i] {
        assert log'.messages[i] == log.messages[i];
      }
      assert rows == before + [ChatRow(username, text, now, isAdmin)];
    }
  }

  /** `get_recent_messages()` as the chat page and the messages endpoint call
      it: at most 50 rows, and in a time-ordered log the last 50 messages,
      oldest first. */
  function DefaultRecentMessages(log: ChatLog): (rows: seq<ChatRow>)
    ensures |rows| == if |log.messages| < DefaultLimit then |log.messages| else DefaultLimit
    ensures TimeOrdered(log.messages) ==>
      forall i :: 0 <= i < |rows| ==> rows[i] == Row(log.messages[|log.messages| - |rows| + i])
  {
    var rows := RecentMessages(log, DefaultLimit);
    assert TimeOrdered(log.messages) ==>
      forall i :: 0 <= i < |rows| ==> rows[i] == Row(log.messages[|log.messages| - |rows| + i]) by {
      if TimeOrdered(log.messages) {
        RecentMessagesAreTheTail(log, DefaultLimit);
      }
    }
    rows
  }

  /** Byte-wise (BINARY collation) order on text: a proper prefix sorts first. */
  predicate StrLt(a: string, b: string)
  {
    if |a| == 0 then |b| > 0
    else if |b| == 0 then false
    else if a[0] == b[0] then StrLt(a[1..], b[1..])
    else a[0] < b[0]
  }

  lemma {:induction false} StrLtIrreflexive(a: string)
    ensures !StrLt(a, a)
  {
    if |a| > 0 {
      StrLtIrreflexive(a[1..]);
    }
  }

  lemma {:induction false} StrLtTransitive(a: string, b: string, c: string)
    requires StrLt(a, b) && StrLt(b, c)
    ensures StrLt(a, c)
  {
    if |a| > 0 && |b| > 0 && |c| > 0 && a[0] == b[0] && b[0] == c[0] {
      StrLtTransitive(a[1..], b[1..], c[1..]);
    }
  }

  lemma {:induction false} StrLtTotal(a: string, b: string)
    ensures a == b || StrLt(a, b) || StrLt(b, a)
  {
    if |a| > 0 && |b| > 0 && a[0] == b[0] {
      StrLtTotal(a[1..], b[1..]);
      if a[1..] == b[1..] {
        assert a == [a[0]] + a[1..] && b == [b[0]] + b[1..];
      }
    }
  }

  /** `ORDER BY username`, with the non-admin entry first when one name appears
      both ways. */
  predicate PresenceLt(p: Presence, q: Presence)
  {
    StrLt(p.username, q.username) || (p.username == q.username && !p.isAdmin && q.isAdmin)
  }

  lemma PresenceLtIrreflexive(p: Presence)
    ensures !PresenceLt(p, p)
  {
    StrLtIrreflexive(p.username);
  }

  lemma PresenceLtTransitive(p: Presence, q: Presence, r: Presence)
    requires PresenceLt(p, q) && PresenceLt(q, r)
    ensures PresenceLt(p, r)
  {
    if StrLt(p.username, q.username) && StrLt(q.username, r.username) {
      StrLtTransitive(p.username, q.username, r.username);
    }
  }

  lemma PresenceLtTotal(p: Presence, q: Presence)
    ensures p == q || PresenceLt(p, q) || PresenceLt(q, p)
  {
    StrLtTotal(p.username, q.username);
  }

  /** Sorted without repeats: the DISTINCT ... ORDER BY shape. */
  predicate StrictlySorted(xs: seq<Presence>)
  {
    forall i, j :: 0 <= i < j < |xs| ==> PresenceLt(xs[i], xs[j])
  }

  /** Adds `p` to a sorted list unless it is already there. */
  function Insert(xs: seq<Presence>, p: Presence): (r: seq<Presence>)
    requires StrictlySorted(xs)
    ensures StrictlySorted(r)
    ensures forall q :: q in r <==> q in xs || q == p
  {
    if |xs| == 0 then [p]
    else if p == xs[0] then xs
    else if PresenceLt(p, xs[0]) then
      assert forall j :: 0 < j < |xs| ==> PresenceLt(xs[0], xs[j]);
      InsertFront(xs, p)
    else
      var rest := Insert(xs[1..], p);
      PresenceLtTotal(p, xs[0]);
      assert forall q :: q in rest ==> PresenceLt(xs[0], q) by {
        forall q | q in rest ensures PresenceLt(xs[0], q) {
          if q != p {
            var j :| 0 <= j < |xs[1..]| && xs[1..][j] == q;
            assert xs[j + 1] == q;
          }
        }
      }
      [xs[0]] + rest
  }

  /** `p` sorts before the head of `xs`, so it can go in front. */
  function InsertFront(xs: seq<Presence>, p: Presence): (r: seq<Presence>)
    requires StrictlySorted(xs) && |xs| > 0 && PresenceLt(p, xs[0])
    ensures StrictlySorted(r) && r == [p] + xs
  {
    forall j | 0 <= j < |xs| ensures PresenceLt(p, xs[j]) {
      if j > 0 {
        PresenceLtTransitive(p, xs[0], xs[j]);
      }
    }
    [p] + xs
  }

  /** A message counts toward the online list when it was posted within the hour. */
  predicate Recent(m: Message, now: int)
  {
    m.timestamp >= now - OnlineWindow
  }

  /** `get_online_users`: every (username, is_admin) pair that posted in the last
      hour, once each, in username order. */
  function OnlineUsers(msgs: seq<Message>, now: int): (r: seq<Presence>)
    ensures StrictlySorted(r)
    ensures forall p :: p in r <==>
      exists i :: 0 <= i < |msgs| && Recent(msgs[i], now) && p == Presence(msgs[i].username, msgs[i].isAdmin)
  {
    if |msgs| == 0 then []
    else
      var init := msgs[..|msgs| - 1];
      var last := msgs[|msgs| - 1];
      var rest := OnlineUsers(init, now);
      assert forall i :: 0 <= i < |init| ==> init[i] == msgs[i];
      if Recent(last, now) then Insert(rest, Presence(last.username, last.isAdmin)) else rest
  }

  /** DISTINCT: no pair is listed twice. */
  lemma OnlineUsersDistinct(msgs: seq<Message>, now: int)
    ensures var r := OnlineUsers(msgs, now);
      forall i, j :: 0 <= i < j < |r| ==> r[i] != r[j]
  {
    var r := OnlineUsers(msgs, now);
    forall i, j | 0 <= i < j < |r| ensures r[i] != r[j] {
      PresenceLtIrreflexive(r[i]);
    }
  }

  /** A message posted now shows its author as online. */
  lemma PosterIsOnline(log: ChatLog, username: string, text: string, isAdmin: bool, now: int)
    requires Wf(log)
    ensures Presence(username, isAdmin) in OnlineUsers(AddMessage(log, username, text, isAdmin, now).0.messages, now)
  {
  }
}

=== FILE: Lots.dfy ===
/** Lot and slot administration: the `slot_model` helpers and the admin routes
    that create, rename, resize and delete lots. */
module Lots {
  import opened Base
  import opened Tables
  import opened Registry

  /** The label of the n-th generated spot, f"Spot {n}". */
  function SpotLabel(n: nat): string
  {
    "Spot " + Decimal(n)
  }

  /** Different spot numbers get different labels. */
  lemma SpotLabelInjective(m: nat, n: nat)
    ensures SpotLabel(m) == SpotLabel(n) ==> m == n
  {
    if SpotLabel(m) == SpotLabel(n) {
      assert Decimal(m) == SpotLabel(m)[5..];
      assert Decimal(n) == SpotLabel(n)[5..];
      DecimalInjective(m, n);
    }
  }

  /** Some lot already carries `name`. */
  predicate NameTaken(s: Store, name: string)
  {
    exists id :: id in s.lots && s.lots[id].name == name
  }

  /** INSERT INTO parking_lots: the row gets the next lot id. */
  function InsertLot(s: Store, name: string, price: int): (r: (Store, Id))
    requires Wf(s) && !NameTaken(s, name)
    ensures Wf(r.0)
    ensures r.1 !in s.lots && r.0.lots.Keys == s.lots.Keys + {r.1}
    ensures r.0.lots[r.1] == Lot(name, price)
    ensures forall id :: id in s.lots ==> r.0.lots[id] == s.lots[id]
    ensures r.0.users == s.users && r.0.slots == s.slots && r.0.bookings == s.bookings
    ensures r.1 == s.nextLot && r.0.nextLot == s.nextLot + 1
    ensures r.0.nextUser == s.nextUser && r.0.nextSlot == s.nextSlot && r.0.nextBooking == s.nextBooking
  {
    (s.(lots := s.lots[s.nextLot := Lot(name, price)], nextLot := s.nextLot + 1), s.nextLot)
  }

  /** `add_parking_lot`: one lot with the default price, or nothing when the
      UNIQUE constraint on the name raises. */
  function AddParkingLot(s: Store, name: string): (r: (Store, Option<Id>))
    requires Wf(s)
    ensures Wf(r.0)
    ensures r.1.None? <==> NameTaken(s, name)
    ensures r.1.None? ==> r.0 == s
    ensures r.1.Some? ==> r.1.value !in s.lots && r.0.lots.Keys == s.lots.Keys + {r.1.value}
    ensures r.1.Some? ==> r.0.lots[r.1.value] == Lot(name, DefaultPrice)
    ensures forall id :: id in s.lots ==> r.0.lots[id] == s.lots[id]
    ensures r.0.users == s.users && r.0.slots == s.slots && r.0.bookings == s.bookings
    ensures r.1.Some? ==> r.1.value == s.nextLot && r.0.nextLot == s.nextLot + 1
    ensures r.0.nextUser == s.nextUser && r.0.nextSlot == s.nextSlot && r.0.nextBooking == s.nextBooking
  {
    if NameTaken(s, name) then (s, None)
    else
      var (s', id) := InsertLot(s, name, DefaultPrice);
      (s', Some(id))
  }

  /** INSERT INTO slots: the row gets the next slot id. No foreign key is
      enforced, so `lotId` need not name an existing lot. */
  function InsertSlot(s: Store, slot: Slot): (r: (Store, Id))
    requires Wf(s)
    ensures Wf(r.0)
    ensures r.1 == s.nextSlot && r.0.nextSlot == s.nextSlot + 1
    ensures r.0.nextUser == s.nextUser
    ensures r.0.slots.Keys == s.slots.Keys + {r.1} && r.0.slots[r.1] == slot
    ensures forall id :: id in s.slots ==> r.0.slots[id] == s.slots[id]
    ensures r.0.users == s.users && r.0.lots == s.lots && r.0.bookings == s.bookings
    ensures r.0.nextLot == s.nextLot && r.0.nextBooking == s.nextBooking
  {
    (s.(slots := s.slots[s.nextSlot := slot], nextSlot := s.nextSlot + 1), s.nextSlot)
  }

  /** `add_slot` (and the admin route that inlines it): one slot with the given
      lot, location and time. The statement names no status, so it is NULL. */
  function AddSlot(s: Store, lotId: Id, location: string, time: string): (r: (Store, Id))
    requires Wf(s)
    ensures Wf(r.0)
    ensures r.1 !in s.slots && r.0.slots.Keys == s.slots.Keys + {r.1}
    ensures r.0.slots[r.1] == Slot(lotId, location, time, Unset)
    ensures forall id :: id in s.slots ==> r.0.slots[id] == s.slots[id]
    ensures r.0.users == s.users && r.0.lots == s.lots && r.0.bookings == s.bookings
    ensures r.1 == s.nextSlot && r.0.nextSlot == s.nextSlot + 1
    ensures r.0.nextUser == s.nextUser && r.0.nextLot == s.nextLot && r.0.nextBooking == s.nextBooking
  {
    InsertSlot(s, Slot(lotId, location, time, Unset))
  }

  /** Appends `count` available slots to `lotId`, labelled "Spot first" onwards,
      on the next `count` ids (the insert loops of `manage_lots` and `edit_lot_spots`). */
  function AppendSpots(s: Store, lotId: Id, first: nat, count: nat): (r: Store)
    requires Wf(s)
    ensures Wf(r)
    ensures r.nextSlot == s.nextSlot + count
    ensures forall id :: id in r.slots <==> id in s.slots || s.nextSlot <= id < s.nextSlot + count
    ensures forall id :: id in s.slots ==> r.slots[id] == s.slots[id]
    ensures forall id :: id in r.slots && id !in s.slots ==>
      r.slots[id] == Slot(lotId, SpotLabel(first + (id - s.nextSlot)), "", Available)
    ensures r.users == s.users && r.lots == s.lots && r.bookings == s.bookings
    ensures r.nextUser == s.nextUser && r.nextLot == s.nextLot && r.nextBooking == s.nextBooking
  {
    var bound := s.nextSlot + count;
    var slots' := map id: Id | id < bound && (id in s.slots || s.nextSlot <= id) ::
      if id in s.slots then s.slots[id] else Slot(lotId, SpotLabel(first + (id - s.nextSlot)), "", Available);
    s.(slots := slots', nextSlot := bound)
  }

  /** The slots of `lotId` after appending are the old ones plus the new ids.
      `AppendSpots`'s contract suffices; the attribute only stops Dafny's
      automatic induction on `count`, which otherwise runs out of resource. */
  lemma {:induction false} AppendSpotsSlots(s: Store, lotId: Id, first: nat, count: nat)
    requires Wf(s)
    ensures SlotsOf(AppendSpots(s, lotId, first, count), lotId) == SlotsOf(s, lotId) + Range(s.nextSlot, count)
    ensures SlotsOf(s, lotId) !! Range(s.nextSlot, count)
  {
  }

  lemma DisjointUnionCard(a: set<Id>, b: set<Id>)
    requires a !! b
    ensures |a + b| == |a| + |b|
  {
  }

  /** Appending `count` slots to a lot raises its slot count by exactly `count`. */
  lemma AppendSpotsCount(s: Store, lotId: Id, first: nat, count: nat)
    requires Wf(s)
    ensures SlotCount(AppendSpots(s, lotId, first, count), lotId) == SlotCount(s, lotId) + count
  {
    SlotCountIsCard(s, lotId);
    SlotCountIsCard(AppendSpots(s, lotId, first, count), lotId);
    AppendSpotsSlots(s, lotId, first, count);
    DisjointUnionCard(SlotsOf(s, lotId), Range(s.nextSlot, count));
  }

  /** `manage_lots` POST: one lot with the given name and price plus `numSpots`
      available slots "Spot 1".."Spot numSpots" (none for a negative count, as
      `range` yields nothing). A taken name raises before anything commits. */
  function CreateLot(s: Store, name: string, price: int, numSpots: int): (r: (Store, Option<Id>))
    requires Wf(s)
    ensures Wf(r.0)
    ensures r.1.None? <==> NameTaken(s, name)
    ensures r.1.None? ==> r.0 == s
    ensures r.1.Some? ==> r.1.value !in s.lots && r.0.lots.Keys == s.lots.Keys + {r.1.value}
    ensures r.1.Some? ==> r.0.lots[r.1.value] == Lot(name, price)
    ensures forall id :: id in s.lots ==> r.0.lots[id] == s.lots[id]
    ensures forall id :: id in s.slots ==> id in r.0.slots && r.0.slots[id] == s.slots[id]
    ensures r.1.Some? ==> var n := if numSpots < 0 then 0 else numSpots;
      && (forall id :: id in r.0.slots <==> id in s.slots || s.nextSlot <= id < s.nextSlot + n)
      && forall id :: id in r.0.slots && id !in s.slots ==>
           r.0.slots[id] == Slot(r.1.value, SpotLabel(id - s.nextSlot + 1), "", Available)
    ensures r.0.users == s.users && r.0.bookings == s.bookings
    ensures r.1.Some? ==> r.1.value == s.nextLot && r.0.nextLot == s.nextLot + 1
    ensures r.1.Some? ==> r.0.nextSlot == s.nextSlot + (if numSpots < 0 then 0 else numSpots)
    ensures r.0.nextUser == s.nextUser && r.0.nextBooking == s.nextBooking
  {
    if NameTaken(s, name) then (s, None)
    else
      var (s1, id) := InsertLot(s, name, price);
      (AppendSpots(s1, id, 1, if numSpots < 0 then 0 else numSpots), Some(id))
  }

  /** A created lot gains exactly `numSpots` slots. Slots inserted earlier with
      the new lot's id (no foreign key stops that) stay attached to it, so
      the count starts from theirs, which is zero when no such slot exists. */
  lemma CreateLotSlotCount(s: Store, name: string, price: int, numSpots: int)
    requires Wf(s) && !NameTaken(s, name)
    ensures var (r, id) := CreateLot(s, name, price, numSpots);
      id.Some? && SlotCount(r, id.value) == SlotCount(s, id.value) + (if numSpots < 0 then 0 else numSpots)
  {
    var (s1, id) := InsertLot(s, name, price);
    AppendSpotsCount(s1, id, 1, if numSpots < 0 then 0 else numSpots);
  }

  /** The slots a lot is created with carry pairwise distinct labels. */
  lemma CreateLotLabelsDistinct(s: Store, name: string, price: int, numSpots: int)
    requires Wf(s)
    ensures var r := CreateLot(s, name, price, numSpots).0;
      forall a, b :: a in r.slots && b in r.slots && a !in s.slots && b !in s.slots && a != b ==>
        r.slots[a].location != r.slots[b].location
  {
    var r := CreateLot(s, name, price, numSpots).0;
    forall a, b | a in r.slots && b in r.slots && a !in s.slots && b !in s.slots && a != b
      ensures r.slots[a].location != r.slots[b].location
    {
      SpotLabelInjective(a - s.nextSlot + 1, b - s.nextSlot + 1);
    }
  }

  /** `delete_lot`: refused, with nothing changed, while any slot of the lot is
      occupied; otherwise the lot row and every slot row with that lot_id go. */
  function DeleteLot(s: Store, lotId: Id): (r: (Store, bool))
    requires Wf(s)
    ensures Wf(r.0)
    ensures !r.1 <==> exists id :: id in s.slots && s.slots[id].lotId == lotId && s.slots[id].status == Occupied
    ensures !r.1 ==> r.0 == s
    ensures r.1 ==> r.0.lots.Keys == s.lots.Keys - {lotId}
    ensures forall id :: id in r.0.lots ==> r.0.lots[id] == s.lots[id]
    ensures r.1 ==> forall id :: id in r.0.slots <==> id in s.slots && s.slots[id].lotId != lotId
    ensures forall id :: id in r.0.slots ==> id in s.slots && r.0.slots[id] == s.slots[id]
    ensures r.0.users == s.users && r.0.bookings == s.bookings
    ensures SameCounters(s, r.0)
  {
    var occupied := Ascending(s.slots, OccupiedIn(lotId), s.nextSlot);
    if |occupied| > 0 then
      assert occupied[0] in occupied;
      (s, false)
    else
      var slots' := map id | id in s.slots && s.slots[id].lotId != lotId :: s.slots[id];
      (s.(lots := s.lots - {lotId}, slots := slots'), true)
  }

  /** `edit_lot` POST: sets the name and price of `lotId` and nothing else. An
      id with no row updates nothing; a name another lot carries raises
      (reported as false) and nothing changes. */
  function EditLot(s: Store, lotId: Id, name: string, price: int): (r: (Store, bool))
    requires Wf(s)
    ensures Wf(r.0)
    ensures !r.1 <==> lotId in s.lots && exists id :: id in s.lots && id != lotId && s.lots[id].name == name
    ensures !r.1 || lotId !in s.lots ==> r.0 == s
    ensures r.1 && lotId in s.lots ==> r.0.lots == s.lots[lotId := Lot(name, price)]
    ensures r.0.users == s.users && r.0.slots == s.slots && r.0.bookings == s.bookings
    ensures SameCounters(s, r.0)
  {
    if lotId !in s.lots then (s, true)
    else if exists id :: id in s.lots && id != lotId && s.lots[id].name == name then (s, false)
    else (s.(lots := s.lots[lotId := Lot(name, price)]), true)
  }

  /** The slots a shrink removes: the available slots of `lotId`, highest id
      first, at most `excess` of them (ORDER BY id DESC LIMIT excess). */
  function ShrinkVictims(s: Store, lotId: Id, excess: nat): (v: seq<Id>)
    requires Wf(s)
    ensures |v| == if excess < |AvailableSlotsOf(s, lotId)| then excess else |AvailableSlotsOf(s, lotId)|
    ensures Decreasing(v)
    ensures forall id :: id in v ==> id in AvailableSlotsOf(s, lotId)
    ensures forall id, w :: id in AvailableSlotsOf(s, lotId) && id !in v && w in v ==> id < w
  {
    var avail := Descending(s.slots, AvailableIn(lotId), s.nextSlot);
    DescendingCountIsCard(s.slots, AvailableIn(lotId), s.nextSlot);
    assert Where(s.slots, AvailableIn(lotId)) == AvailableSlotsOf(s, lotId);
    var v := if excess < |avail| then avail[..excess] else avail;
    assert forall id :: id in avail && id !in v ==> exists k :: excess <= k < |avail| && avail[k] == id;
    v
  }

  /** Removes the given slots. */
  function RemoveSlots(s: Store, victims: set<Id>): (r: Store)
    requires Wf(s)
    ensures Wf(r)
    ensures r.slots.Keys == s.slots.Keys - victims
    ensures forall id :: id in r.slots ==> r.slots[id] == s.slots[id]
    ensures r.users == s.users && r.lots == s.lots && r.bookings == s.bookings
    ensures SameCounters(s, r)
  {
    s.(slots := s.slots - victims)
  }

  /** `edit_lot_spots`: the lot's current COUNT(*) of slots is compared with the
      requested number. Growing appends "Spot current+1".."Spot new"; shrinking
      deletes at most current-new available slots, highest id first, and leaves
      occupied and status-less slots alone. */
  function EditLotSpots(s: Store, lotId: Id, newSpots: int): (r: Store)
    requires Wf(s)
    ensures Wf(r)
    ensures r.users == s.users && r.lots == s.lots && r.bookings == s.bookings
    ensures forall id :: id in s.slots && s.slots[id].lotId != lotId ==> id in r.slots && r.slots[id] == s.slots[id]
    ensures forall id :: id in s.slots && s.slots[id].status != Available ==> id in r.slots && r.slots[id] == s.slots[id]
    ensures forall id :: id in s.slots && id in r.slots ==> r.slots[id] == s.slots[id]
    ensures newSpots > SlotCount(s, lotId) ==>
      var n := newSpots - SlotCount(s, lotId);
      && (forall id :: id in r.slots <==> id in s.slots || s.nextSlot <= id < s.nextSlot + n)
      && forall id :: id in r.slots && id !in s.slots ==>
           r.slots[id] == Slot(lotId, SpotLabel(SlotCount(s, lotId) + 1 + (id - s.nextSlot)), "", Available)
    ensures newSpots < SlotCount(s, lotId) ==>
      var v := ShrinkVictims(s, lotId, SlotCount(s, lotId) - newSpots);
      r.slots.Keys == s.slots.Keys - Elems(v)
    ensures newSpots == SlotCount(s, lotId) ==> r == s
    ensures r.nextUser == s.nextUser && r.nextLot == s.nextLot && r.nextBooking == s.nextBooking
    ensures r.nextSlot == s.nextSlot + (if newSpots > SlotCount(s, lotId) then newSpots - SlotCount(s, lotId) else 0)
  {
    var current := SlotCount(s, lotId);
    if newSpots > current then AppendSpots(s, lotId, current + 1, newSpots - current)
    else if newSpots < current then
      RemoveSlots(s, Elems(ShrinkVictims(s, lotId, current - newSpots)))
    else s
  }

  /** The slots of `lotId` after a shrink are the old ones minus the victims. */
  lemma ShrinkSlots(s: Store, lotId: Id, excess: nat)
    requires Wf(s)
    ensures var v := Elems(ShrinkVictims(s, lotId, excess));
      SlotsOf(s, lotId) == SlotsOf(RemoveSlots(s, v), lotId) + v && SlotsOf(RemoveSlots(s, v), lotId) !! v
  {
  }

  /** Shrinking removes exactly the chosen victims from the lot's slots. */
  lemma ShrinkCount(s: Store, lotId: Id, excess: nat)
    requires Wf(s)
    ensures var v := ShrinkVictims(s, lotId, excess);
      SlotCount(RemoveSlots(s, Elems(v)), lotId) == SlotCount(s, lotId) - |v|
  {
    var v := ShrinkVictims(s, lotId, excess);
    var r := RemoveSlots(s, Elems(v));
    DecreasingIsDistinct(v);
    DistinctCard(v);
    SlotCountIsCard(s, lotId);
    SlotCountIsCard(r, lotId);
    ShrinkSlots(s, lotId, excess);
    DisjointUnionCard(SlotsOf(r, lotId), Elems(v));
  }

  lemma SubsetCard(a: set<Id>, b: set<Id>)
    requires a <= b
    ensures |a| <= |b|
  {
    assert b == a + (b - a);
    DisjointUnionCard(a, b - a);
  }

  lemma GrowCount(s: Store, lotId: Id, newSpots: int)
    requires Wf(s) && newSpots > SlotCount(s, lotId)
    ensures SlotCount(EditLotSpots(s, lotId, newSpots), lotId) == newSpots
  {
    var current := SlotCount(s, lotId);
    var grown := AppendSpots(s, lotId, current + 1, newSpots - current);
    assert EditLotSpots(s, lotId, newSpots) == grown;
    AppendSpotsCount(s, lotId, current + 1, newSpots - current);
    assert SlotCount(grown, lotId) == newSpots;
  }

  lemma ShrinkToCount(s: Store, lotId: Id, newSpots: int)
    requires Wf(s) && newSpots < SlotCount(s, lotId)
    ensures var v := ShrinkVictims(s, lotId, SlotCount(s, lotId) - newSpots);
      SlotCount(EditLotSpots(s, lotId, newSpots), lotId) == SlotCount(s, lotId) - |v|
  {
    ShrinkCount(s, lotId, SlotCount(s, lotId) - newSpots);
  }

  /** After a resize the lot has the requested number of slots, unless too few
      were available to delete: it then keeps every slot that was not available. */
  lemma EditLotSpotsCount(s: Store, lotId: Id, newSpots: int)
    requires Wf(s)
    ensures var kept := SlotCount(s, lotId) - |AvailableSlotsOf(s, lotId)|;
      SlotCount(EditLotSpots(s, lotId, newSpots), lotId) == if newSpots < kept then kept else newSpots
  {
    var current := SlotCount(s, lotId);
    SlotCountIsCard(s, lotId);
    SubsetCard(AvailableSlotsOf(s, lotId), SlotsOf(s, lotId));
    if newSpots > current {
      GrowCount(s, lotId, newSpots);
    } else if newSpots < current {
      ShrinkToCount(s, lotId, newSpots);
    }
  }

  /** `delete_slot`: removes the slot with that id, whatever its status. An
      unknown id deletes nothing. */
  function DeleteSlot(s: Store, slotId: Id): (r: Store)
    ensures r.slots.Keys == s.slots.Keys - {slotId}
    ensures forall id :: id in r.slots ==> r.slots[id] == s.slots[id]
    ensures slotId !in s.slots ==> r == s
    ensures r.users == s.users && r.lots == s.lots && r.bookings == s.bookings
    ensures SameCounters(s, r)
    ensures Wf(s) ==> Wf(r)
  {
    s.(slots := s.slots - {slotId})
  }

  /** A row of `get_all_slots`: slot id, lot name, location, time. */
  datatype SlotRow = SlotRow(id: Id, lotName: string, location: string, time: string)

  /** WHERE the slot's lot exists (the inner JOIN). */
  function LotExists(lots: map<Id, Lot>): Slot -> bool
  {
    (sl: Slot) => sl.lotId in lots
  }

  /** `get_all_slots`: every slot whose lot exists, joined with the lot's name,
      highest slot id first. Slots of a deleted lot are not listed. */
  function AllSlots(s: Store): (rows: seq<SlotRow>)
    requires Wf(s)
    ensures forall i, j :: 0 <= i < j < |rows| ==> rows[i].id > rows[j].id
    ensures forall i :: 0 <= i < |rows| ==>
      var id := rows[i].id;
      && id in s.slots && s.slots[id].lotId in s.lots
      && rows[i] == SlotRow(id, s.lots[s.slots[id].lotId].name, s.slots[id].location, s.slots[id].time)
    ensures forall id :: id in s.slots && s.slots[id].lotId in s.lots ==>
      exists i :: 0 <= i < |rows| && rows[i].id == id
  {
    var ids := Descending(s.slots, LotExists(s.lots), s.nextSlot);
    var rows := seq(|ids|, i requires 0 <= i < |ids| =>
      var sl := s.slots[ids[i]];
      SlotRow(ids[i], s.lots[sl.lotId].name, sl.location, sl.time));
    assert forall id :: id in ids ==> exists i :: 0 <= i < |ids| && ids[i] == id && rows[i].id == id;
    rows
  }

  /** A row of `get_lot_slot_counts`: lot id, name, price, number of slots. */
  datatype LotCountRow = LotCountRow(id: Id, name: string, price: int, count: nat)

  /** A row of `get_lot_slot_summary`: name, number of slots, price. */
  datatype LotSummaryRow = LotSummaryRow(name: string, count: nat, price: int)

  /** The lot ids in ascending order (the GROUP BY parking_lots.id order). */
  function LotIds(s: Store): (ids: seq<Id>)
  {
    Ascending(s.lots, Every(), s.nextLot)
  }

  lemma AllSlotCountsAreCards(s: Store)
    requires Wf(s)
    ensures forall lotId :: SlotCount(s, lotId) == |SlotsOf(s, lotId)|
  {
    forall lotId ensures SlotCount(s, lotId) == |SlotsOf(s, lotId)| {
      SlotCountIsCard(s, lotId);
    }
  }

  /** `get_lot_slot_counts`: one row per lot, in lot id order, whose count is the
      number of slots with that lot_id (0 for a lot without slots, by the LEFT JOIN). */
  function LotSlotCounts(s: Store): (rows: seq<LotCountRow>)
    requires Wf(s)
    ensures forall i, j :: 0 <= i < j < |rows| ==> rows[i].id < rows[j].id
    ensures forall lotId :: lotId in s.lots <==> exists i :: 0 <= i < |rows| && rows[i].id == lotId
    ensures forall i :: 0 <= i < |rows| ==>
      && rows[i].id in s.lots
      && rows[i].name == s.lots[rows[i].id].name && rows[i].price == s.lots[rows[i].id].price
      && rows[i].count == |SlotsOf(s, rows[i].id)|
  {
    var ids := LotIds(s);
    AllSlotCountsAreCards(s);
    var rows := seq(|ids|, i requires 0 <= i < |ids| =>
      LotCountRow(ids[i], s.lots[ids[i]].name, s.lots[ids[i]].price, SlotCount(s, ids[i])));
    assert forall id :: id in ids ==> exists i :: 0 <= i < |ids| && ids[i] == id && rows[i].id == id;
    rows
  }

  /** `get_lot_slot_summary`: the same grouping, reported as (name, count, price);
      it agrees row for row with `get_lot_slot_counts`. */
  function LotSlotSummary(s: Store): (rows: seq<LotSummaryRow>)
    requires Wf(s)
    ensures |rows| == |LotSlotCounts(s)|
    ensures forall i :: 0 <= i < |rows| ==>
      var c := LotSlotCounts(s)[i];
      rows[i] == LotSummaryRow(c.name, c.count, c.price)
  {
    var ids := LotIds(s);
    seq(|ids|, i requires 0 <= i < |ids| =>
      LotSummaryRow(s.lots[ids[i]].name, SlotCount(s, ids[i]), s.lots[ids[i]].price))
  }
}

=== FILE: Occupancy.dfy ===
/** The link between slot status and bookings: a slot is occupied exactly
    when one open booking holds it, and every open booking holds an existing
    slot. `book_slot` keeps it, and so does releasing an OPEN booking;
    releasing a closed booking and deleting an occupied slot break it. */
module Occupancy {
  import opened Base
  import opened Tables
  import opened Registry
  import opened Users
  import opened Lots
  import opened Bookings

  /** Booking `b` is open and holds slot `slotId`. */
  predicate Holds(bookings: map<Id, Booking>, b: Id, slotId: Id)
  {
    b in bookings && bookings[b].Open() && bookings[b].slotId == slotId
  }

  /** Some open booking holds slot `slotId`. */
  ghost predicate Held(bookings: map<Id, Booking>, slotId: Id)
  {
    exists b :: b in bookings && bookings[b].Open() && bookings[b].slotId == slotId
  }

  /** The open bookings of a slot. */
  function OpenBookingsOf(s: Store, slotId: Id): set<Id>
  {
    set b | b in s.bookings && s.bookings[b].Open() && s.bookings[b].slotId == slotId
  }

  /** No two open bookings hold the same slot. */
  ghost predicate OneOpenPerSlot(bookings: map<Id, Booking>)
  {
    forall b, c ::
      (b in bookings && c in bookings && bookings[b].Open() && bookings[c].Open()
       && bookings[b].slotId == bookings[c].slotId) ==> b == c
  }

  /** The status/booking invariant: every open booking holds an existing slot,
      no slot is held twice, and a slot is occupied exactly when it is held. */
  ghost predicate Consistent(s: Store)
  {
    && (forall b :: b in s.bookings && s.bookings[b].Open() ==> s.bookings[b].slotId in s.slots)
    && OneOpenPerSlot(s.bookings)
    && (forall id :: id in s.slots ==> (s.slots[id].status == Occupied <==> Held(s.bookings, id)))
  }

  /** The invariant says, slot by slot: occupied iff exactly one open booking. */
  lemma ConsistentMeansOneOpenBooking(s: Store, slotId: Id)
    requires Consistent(s) && slotId in s.slots
    ensures s.slots[slotId].status == Occupied <==> |OpenBookingsOf(s, slotId)| == 1
    ensures s.slots[slotId].status != Occupied ==> OpenBookingsOf(s, slotId) == {}
  {
    if s.slots[slotId].status == Occupied {
      assert Held(s.bookings, slotId);
      var b: Id :| b in s.bookings && s.bookings[b].Open() && s.bookings[b].slotId == slotId;
      assert OpenBookingsOf(s, slotId) == {b} by {
        forall c | c in OpenBookingsOf(s, slotId) ensures c == b {
          assert s.bookings[c].slotId == s.bookings[b].slotId;
        }
      }
    } else {
      forall c | c in OpenBookingsOf(s, slotId) ensures false {
        assert Held(s.bookings, slotId) by { assert Holds(s.bookings, c, slotId); }
      }
    }
  }

  lemma EmptyIsConsistent()
    ensures Consistent(Empty())
  {
  }

  /** Closing the only open booking of a slot leaves that slot unheld and every
      other slot as it was. */
  lemma HeldAfterClose(bookings: map<Id, Booking>, k: Id, closed: Booking, slotId: Id)
    requires OneOpenPerSlot(bookings)
    requires k in bookings && bookings[k].Open()
    requires !closed.Open() && closed.slotId == bookings[k].slotId
    ensures Held(bookings[k := closed], slotId) <==> Held(bookings, slotId) && slotId != closed.slotId
  {
    var r := bookings[k := closed];
    if Held(r, slotId) {
      var b: Id :| b in r && r[b].Open() && r[b].slotId == slotId;
      assert b != k && Holds(bookings, b, slotId);
    }
    if Held(bookings, slotId) && slotId != closed.slotId {
      var b: Id :| b in bookings && bookings[b].Open() && bookings[b].slotId == slotId;
      assert b != k && Holds(r, b, slotId);
    }
  }

  /** Booking through `book_slot` keeps the invariant: the chosen slot was
      available, so it had no open booking, and now has exactly the new one. */
  lemma BookKeepsConsistent(s: Store, user: string, lotId: Id, vehicle: string, now: int)
    requires Wf(s) && Consistent(s)
    ensures Consistent(Book(s, user, lotId, vehicle, now).0)
  {
  }

  /** Releasing an open booking keeps the invariant. */
  lemma ReleaseOpenKeepsConsistent(s: Store, bookingId: Id, now: int)
    requires Wf(s) && Consistent(s)
    requires bookingId in s.bookings && s.bookings[bookingId].Open()
    ensures Consistent(Release(s, bookingId, now).0)
  {
    var (r, outcome) := Release(s, bookingId, now);
    if outcome.Released? {
      var slotId := s.bookings[bookingId].slotId;
      var closed := r.bookings[bookingId];
      assert r.bookings == s.bookings[bookingId := closed];
      forall b, c | b in r.bookings && c in r.bookings && r.bookings[b].Open() && r.bookings[c].Open()
          && r.bookings[b].slotId == r.bookings[c].slotId
        ensures b == c
      {
        assert s.bookings[b] == r.bookings[b] && s.bookings[c] == r.bookings[c];
      }
      forall id | id in r.slots
        ensures r.slots[id].status == Occupied <==> Held(r.bookings, id)
      {
        HeldAfterClose(s.bookings, bookingId, closed, id);
      }
    }
  }

  /** Releasing a booking that is already closed, while another open booking
      holds its slot, marks that slot available under the open booking. */
  lemma ReleaseClosedBreaksConsistent(s: Store, bookingId: Id, now: int)
    requires Wf(s) && Consistent(s)
    requires bookingId in s.bookings && !s.bookings[bookingId].Open()
    requires s.bookings[bookingId].slotId in s.slots
    requires s.slots[s.bookings[bookingId].slotId].lotId in s.lots
    requires s.slots[s.bookings[bookingId].slotId].status == Occupied
    ensures Release(s, bookingId, now).1.Released?
    ensures !Consistent(Release(s, bookingId, now).0)
  {
    var r := Release(s, bookingId, now).0;
    var slotId := s.bookings[bookingId].slotId;
    assert Held(s.bookings, slotId);
    var other: Id :| other in s.bookings && s.bookings[other].Open() && s.bookings[other].slotId == slotId;
    assert other != bookingId && Holds(r.bookings, other, slotId);
    assert r.slots[slotId].status == Available;
  }

  /** A concrete history reaching that state: lot 1 with one slot, booking 1
      released at 3600 s, the slot rebooked as booking 2, then booking 1
      released again at 5000 s. */
  function RebookedStore(): (s: Store)
    ensures Wf(s) && Consistent(s)
  {
    var s := Store(map[],
                   map[1 := Lot("Lot", 20)],
                   map[1 := Slot(1, "Spot 1", "", Occupied)],
                   map[1 := Booking("alice", 1, "KA01", 0, Some(3600), Some(20)),
                       2 := Booking("bob", 1, "KA02", 4000, None, None)],
                   1, 2, 2, 3);
    assert Holds(s.bookings, 2, 1);
    s
  }

  lemma DoubleReleaseExample()
    ensures Release(RebookedStore(), 1, 5000).1 == Released(20)
    ensures Holds(Release(RebookedStore(), 1, 5000).0.bookings, 2, 1)
    ensures Release(RebookedStore(), 1, 5000).0.slots[1].status == Available
    ensures !Consistent(Release(RebookedStore(), 1, 5000).0)
  {
  }

  /** What `release_booking` reports once it also refuses closed bookings. */
  datatype CheckedOutcome = AlreadyClosed | Outcome(outcome: ReleaseOutcome)

  /** A release that refuses a closed booking, changing nothing; an open
      booking is released as before. */
  function ReleaseOpen(s: Store, bookingId: Id, now: int): (r: (Store, CheckedOutcome))
    requires Wf(s)
    ensures Wf(r.0)
    ensures r.1 == AlreadyClosed <==> bookingId in s.bookings && !s.bookings[bookingId].Open()
    ensures r.1 == AlreadyClosed ==> r.0 == s
    ensures r.1.Outcome? ==> (r.0, r.1.outcome) == Release(s, bookingId, now)
    ensures SameCounters(s, r.0)
  {
    if bookingId in s.bookings && !s.bookings[bookingId].Open() then (s, AlreadyClosed)
    else
      var (s', outcome) := Release(s, bookingId, now);
      (s', Outcome(outcome))
  }

  /** The checked release keeps the invariant for every booking id. */
  lemma ReleaseOpenPreservesConsistent(s: Store, bookingId: Id, now: int)
    requires Wf(s) && Consistent(s)
    ensures Consistent(ReleaseOpen(s, bookingId, now).0)
  {
    if bookingId in s.bookings && s.bookings[bookingId].Open() {
      ReleaseOpenKeepsConsistent(s, bookingId, now);
    }
  }

  /** Deleting an occupied slot leaves its open booking on a slot that no
      longer exists. */
  lemma DeleteOccupiedSlotBreaksConsistent(s: Store, slotId: Id)
    requires Consistent(s) && slotId in s.slots && s.slots[slotId].status == Occupied
    ensures !Consistent(DeleteSlot(s, slotId))
  {
  }

  /** In the rebooked history, deleting slot 1 strands open booking 2. */
  lemma DeleteOccupiedSlotExample()
    ensures Holds(DeleteSlot(RebookedStore(), 1).bookings, 2, 1)
    ensures 1 !in DeleteSlot(RebookedStore(), 1).slots
    ensures !Consistent(DeleteSlot(RebookedStore(), 1))
  {
  }

  /** A deletion that refuses an occupied slot, as `delete_lot` refuses a lot
      with an occupied slot. */
  function DeleteFreeSlot(s: Store, slotId: Id): (r: (Store, bool))
    ensures !r.1 <==> slotId in s.slots && s.slots[slotId].status == Occupied
    ensures !r.1 ==> r.0 == s
    ensures r.1 ==> r.0 == DeleteSlot(s, slotId)
    ensures SameCounters(s, r.0)
  {
    if slotId in s.slots && s.slots[slotId].status == Occupied then (s, false)
    else (DeleteSlot(s, slotId), true)
  }

  /** Deleting a slot that is not occupied keeps the invariant, so the checked
      deletion always does. */
  lemma DeleteFreeSlotPreservesConsistent(s: Store, slotId: Id)
    requires Consistent(s)
    ensures Consistent(DeleteFreeSlot(s, slotId).0)
  {
  }

  /** Deleting a lot that the guard lets through keeps the invariant: none of
      its slots is occupied, so none is held by an open booking. */
  lemma DeleteLotKeepsConsistent(s: Store, lotId: Id)
    requires Wf(s) && Consistent(s)
    ensures Consistent(DeleteLot(s, lotId).0)
  {
  }

  /** New slots come with ids no booking holds, so adding them keeps the
      invariant (creating a lot, growing one, or `add_slot`). */
  lemma CreateLotKeepsConsistent(s: Store, name: string, price: int, numSpots: int)
    requires Wf(s) && Consistent(s)
    ensures Consistent(CreateLot(s, name, price, numSpots).0)
  {
  }

  lemma AddSlotKeepsConsistent(s: Store, lotId: Id, location: string, time: string)
    requires Wf(s) && Consistent(s)
    ensures Consistent(AddSlot(s, lotId, location, time).0)
  {
  }

  /** Resizing keeps the invariant: growing adds available slots, shrinking
      removes only available ones. */
  lemma EditLotSpotsKeepsConsistent(s: Store, lotId: Id, newSpots: int)
    requires Wf(s) && Consistent(s)
    ensures Consistent(EditLotSpots(s, lotId, newSpots))
  {
  }

  /** Renaming or repricing a lot touches neither slots nor bookings. */
  lemma EditLotKeepsConsistent(s: Store, lotId: Id, name: string, price: int)
    requires Wf(s) && Consistent(s)
    ensures Consistent(EditLot(s, lotId, name, price).0)
  {
  }

  /** Registering touches neither slots nor bookings. */
  lemma AddUserKeepsConsistent(s: Store, user: string, password: string)
    requires Consistent(s)
    ensures Consistent(AddUser(s, user, password).0)
  {
  }

  /** Changing a password touches neither slots nor bookings. */
  lemma UpdatePasswordKeepsConsistent(s: Store, user: string, newPassword: Option<string>)
    requires Consistent(s)
    ensures Consistent(UpdatePassword(s, user, newPassword))
  {
  }
}

=== FILE: Registry.dfy ===
/** The parking registry's persistent state: the users, parking_lots, slots and
    bookings tables and their AUTOINCREMENT counters, as immutable maps. Every
    request is one atomic transition from one `Store` to the next. */
module Registry {
  import opened Base
  import opened Tables

  /** A slot's `status` column: 'A', 'O', or NULL for a slot inserted without one. */
  datatype Status = Available | Occupied | Unset

  /** A row of `users`, keyed by its UNIQUE username. */
  datatype User = User(id: Id, password: string, isAdmin: bool)

  /** A row of `parking_lots`: name (UNIQUE) and hourly price. */
  datatype Lot = Lot(name: string, price: int)

  /** A row of `slots`. */
  datatype Slot = Slot(lotId: Id, location: string, time: string, status: Status)

  /** A row of `bookings`; `user` holds the username stored in `user_email`.
      `end` and `cost` stay NULL until the booking is released. */
  datatype Booking = Booking(user: string, slotId: Id, vehicle: string, start: int,
                             end: Option<int>, cost: Option<int>)
  {
    predicate Open() { end.None? }
  }

  /** The whole database. `next*` is the id each AUTOINCREMENT table hands out next. */
  datatype Store = Store(
    users: map<string, User>,
    lots: map<Id, Lot>,
    slots: map<Id, Slot>,
    bookings: map<Id, Booking>,
    nextUser: Id,
    nextLot: Id,
    nextSlot: Id,
    nextBooking: Id)

  /** `price REAL DEFAULT 20`. */
  const DefaultPrice: int := 20

  /** Freshly created tables. */
  function Empty(): (s: Store)
    ensures Wf(s)
  {
    Store(map[], map[], map[], map[], 1, 1, 1, 1)
  }

  /** What the schema guarantees: ids are below their counter and unique, and
      lot names are unique. */
  predicate Wf(s: Store)
  {
    && 1 <= s.nextUser && 1 <= s.nextLot && 1 <= s.nextSlot && 1 <= s.nextBooking
    && (forall u :: u in s.users ==> 1 <= s.users[u].id < s.nextUser)
    && (forall u, v :: u in s.users && v in s.users && u != v ==> s.users[u].id != s.users[v].id)
    && KeysBelow(s.lots, s.nextLot)
    && KeysBelow(s.slots, s.nextSlot)
    && KeysBelow(s.bookings, s.nextBooking)
    && UniqueLotNames(s.lots)
  }

  /** No AUTOINCREMENT counter moved: nothing was inserted. Counters never
      move back, so a deleted row's id is never handed out again. */
  predicate SameCounters(s: Store, r: Store)
  {
    && r.nextUser == s.nextUser && r.nextLot == s.nextLot
    && r.nextSlot == s.nextSlot && r.nextBooking == s.nextBooking
  }

  predicate UniqueLotNames(lots: map<Id, Lot>)
  {
    forall a, b :: a in lots && b in lots && a != b ==> lots[a].name != lots[b].name
  }

  /** WHERE lot_id = ? */
  function InLot(lotId: Id): Slot -> bool
  {
    (sl: Slot) => sl.lotId == lotId
  }

  /** WHERE lot_id = ? AND status = 'A' */
  function AvailableIn(lotId: Id): Slot -> bool
  {
    (sl: Slot) => sl.lotId == lotId && sl.status == Available
  }

  /** WHERE lot_id = ? AND status = 'O' */
  function OccupiedIn(lotId: Id): Slot -> bool
  {
    (sl: Slot) => sl.lotId == lotId && sl.status == Occupied
  }

  /** SELECT COUNT(*) FROM slots WHERE lot_id = ? */
  function SlotCount(s: Store, lotId: Id): nat
  {
    |Ascending(s.slots, InLot(lotId), s.nextSlot)|
  }

  /** The ids of the slots whose lot_id is `lotId`. */
  function SlotsOf(s: Store, lotId: Id): set<Id>
  {
    set id | id in s.slots && s.slots[id].lotId == lotId
  }

  /** The ids of the available slots of `lotId`. */
  function AvailableSlotsOf(s: Store, lotId: Id): set<Id>
  {
    set id | id in s.slots && s.slots[id].lotId == lotId && s.slots[id].status == Available
  }

  /** The slot count the SQL COUNT(*) computes is the number of slots of the lot. */
  lemma SlotCountIsCard(s: Store, lotId: Id)
    requires Wf(s)
    ensures SlotCount(s, lotId) == |SlotsOf(s, lotId)|
  {
    CountIsCard(s.slots, InLot(lotId), s.nextSlot);
    assert Where(s.slots, InLot(lotId)) == SlotsOf(s, lotId);
  }
}

=== FILE: Tables.dfy ===
/** Queries over tables keyed by AUTOINCREMENT ids: the rows of a map whose
    value satisfies a WHERE predicate, listed in id order (ORDER BY id ASC
    or DESC), and their COUNT(*). */
module Tables {

  /** Row id of an AUTOINCREMENT table. */
  type Id = nat

  predicate Increasing(xs: seq<Id>)
  {
    forall i, j :: 0 <= i < j < |xs| ==> xs[i] < xs[j]
  }

  predicate Decreasing(xs: seq<Id>)
  {
    forall i, j :: 0 <= i < j < |xs| ==> xs[i] > xs[j]
  }

  predicate Distinct(xs: seq<Id>)
  {
    forall i, j :: 0 <= i < |xs| && 0 <= j < |xs| && i != j ==> xs[i] != xs[j]
  }

  /** The predicate that keeps every row (a query without WHERE). */
  function Every<V>(): V -> bool
  {
    _ => true
  }

  /** Every key below `bound` lies in [1, bound): AUTOINCREMENT starts at 1 and
      `bound` is the next id the table will hand out. */
  predicate KeysBelow<V>(m: map<Id, V>, bound: Id)
  {
    forall id :: id in m ==> 1 <= id < bound
  }

  /** The ids below `bound` of the rows of `m` satisfying `p`, lowest first. */
  function Ascending<V>(m: map<Id, V>, p: V -> bool, bound: nat): (r: seq<Id>)
    ensures forall id :: id in r <==> id < bound && id in m && p(m[id])
    ensures Increasing(r)
    decreases bound
  {
    if bound == 0 then []
    else
      var rest := Ascending(m, p, bound - 1);
      if bound - 1 in m && p(m[bound - 1]) then
        assert forall i :: 0 <= i < |rest| ==> rest[i] in rest;
        rest + [bound - 1]
      else rest
  }

  /** The ids below `bound` of the rows of `m` satisfying `p`, highest first. */
  function Descending<V>(m: map<Id, V>, p: V -> bool, bound: nat): (r: seq<Id>)
    ensures forall id :: id in r <==> id < bound && id in m && p(m[id])
    ensures Decreasing(r)
    decreases bound
  {
    if bound == 0 then []
    else
      var rest := Descending(m, p, bound - 1);
      if bound - 1 in m && p(m[bound - 1]) then
        assert forall i :: 0 <= i < |rest| ==> rest[i] in rest;
        [bound - 1] + rest
      else rest
  }

  /** The rows of `m` satisfying `p`, as a set of ids. */
  function Where<V>(m: map<Id, V>, p: V -> bool): set<Id>
  {
    set id | id in m && p(m[id])
  }

  /** The ids listed in `xs`. */
  function Elems(xs: seq<Id>): set<Id>
  {
    set x | x in xs
  }

  /** A sequence without repetitions has as many elements as its set. */
  lemma {:induction false} DistinctCard(xs: seq<Id>)
    requires Distinct(xs)
    ensures |Elems(xs)| == |xs|
  {
    if |xs| > 0 {
      var t := xs[1..];
      assert Distinct(t) by {
        forall i, j | 0 <= i < |t| && 0 <= j < |t| && i != j
          ensures t[i] != t[j]
        {
          assert t[i] == xs[i + 1] && t[j] == xs[j + 1];
        }
      }
      DistinctCard(t);
      var all, tail := Elems(xs), Elems(t);
      assert all == tail + {xs[0]};
      assert xs[0] !in tail by {
        forall k | 0 <= k < |t| ensures t[k] != xs[0] {
          assert t[k] == xs[k + 1];
        }
      }
      assert |all| == |tail| + 1;
    }
  }

  lemma IncreasingIsDistinct(xs: seq<Id>)
    requires Increasing(xs)
    ensures Distinct(xs)
  {
  }

  lemma DecreasingIsDistinct(xs: seq<Id>)
    requires Decreasing(xs)
    ensures Distinct(xs)
  {
  }

  /** COUNT(*) over the ascending listing is the number of matching rows, once
      every key lies below the bound. */
  lemma CountIsCard<V>(m: map<Id, V>, p: V -> bool, bound: nat)
    requires forall id :: id in m ==> id < bound
    ensures |Ascending(m, p, bound)| == |Where(m, p)|
  {
    var r := Ascending(m, p, bound);
    IncreasingIsDistinct(r);
    DistinctCard(r);
    assert Elems(r) == Where(m, p);
  }

  /** The same for the descending listing. */
  lemma DescendingCountIsCard<V>(m: map<Id, V>, p: V -> bool, bound: nat)
    requires forall id :: id in m ==> id < bound
    ensures |Descending(m, p, bound)| == |Where(m, p)|
  {
    var r := Descending(m, p, bound);
    DecreasingIsDistinct(r);
    DistinctCard(r);
    assert Elems(r) == Where(m, p);
  }

  /** The ids lo, lo+1, ..., lo+n-1. */
  function Range(lo: nat, n: nat): (r: set<Id>)
    ensures forall id :: id in r <==> lo <= id < lo + n
    ensures |r| == n
    decreases n
  {
    if n == 0 then {} else Range(lo, n - 1) + {lo + n - 1}
  }
}

=== FILE: Users.dfy ===
/** Accounts: registration (`add_user`), login (`check_user`) and the profile
    page's password change. Passwords are stored and compared as given. */
module Users {
  import opened Base
  import opened Tables
  import opened Registry

  /** The row `SELECT * FROM users` yields: (id, username, password, is_admin). */
  datatype UserRow = UserRow(id: Id, username: string, password: string, isAdmin: bool)

  /** `add_user`: inserts (username, password) with is_admin left at its default 0.
      The UNIQUE constraint rejects a taken username; the exception is caught and
      reported as False with nothing inserted. */
  function AddUser(s: Store, username: string, password: string): (r: (Store, bool))
    ensures r.1 <==> username !in s.users
    ensures !r.1 ==> r.0 == s
    ensures r.1 ==> r.0.users.Keys == s.users.Keys + {username}
    ensures r.1 ==> r.0.users[username].password == password && !r.0.users[username].isAdmin
    ensures r.1 ==> forall u :: u in s.users ==> r.0.users[u] == s.users[u]
    ensures r.1 ==> r.0.users[username].id == s.nextUser && r.0.nextUser == s.nextUser + 1
    ensures r.0.nextLot == s.nextLot && r.0.nextSlot == s.nextSlot && r.0.nextBooking == s.nextBooking
    ensures r.0.lots == s.lots && r.0.slots == s.slots && r.0.bookings == s.bookings
    ensures Wf(s) ==> Wf(r.0)
  {
    if username in s.users then (s, false)
    else
      var row := User(s.nextUser, password, false);
      (s.(users := s.users[username := row], nextUser := s.nextUser + 1), true)
  }

  /** `check_user`: the row whose username and password both match, if any. */
  function CheckUser(s: Store, username: string, password: string): (r: Option<UserRow>)
    ensures r.Some? <==> exists u :: u in s.users && u == username && s.users[u].password == password
    ensures r.Some? ==> r.value.username == username && r.value.password == password
    ensures r.Some? ==> r.value.id == s.users[username].id && r.value.isAdmin == s.users[username].isAdmin
  {
    if username in s.users && s.users[username].password == password then
      var u := s.users[username];
      Some(UserRow(u.id, username, password, u.isAdmin))
    else None
  }

  /** A username that is not yet registered can log in with the password it was
      registered with, as a non-admin. */
  lemma RegisterThenLogin(s: Store, username: string, password: string)
    requires username !in s.users
    ensures var (s', ok) := AddUser(s, username, password);
      ok && CheckUser(s', username, password).Some? && !CheckUser(s', username, password).value.isAdmin
  {
  }

  /** Registering a taken username does not change the password it logs in with. */
  lemma DuplicateRegistrationKeepsPassword(s: Store, username: string, current: string, attempted: string)
    requires CheckUser(s, username, current).Some?
    ensures var (s', ok) := AddUser(s, username, attempted);
      !ok && CheckUser(s', username, current) == CheckUser(s, username, current)
  {
  }

  /** The profile page's update: an empty or missing `new_password` changes
      nothing; otherwise the session user's password is overwritten (an UPDATE
      that matches no row when that user no longer exists). */
  function UpdatePassword(s: Store, sessionUser: string, newPassword: Option<string>): (r: Store)
    ensures newPassword.None? || newPassword.value == "" ==> r == s
    ensures r.users.Keys == s.users.Keys
    ensures forall u :: u in s.users && u != sessionUser ==> r.users[u] == s.users[u]
    ensures sessionUser in s.users && newPassword.Some? && newPassword.value != "" ==>
      r.users[sessionUser] == s.users[sessionUser].(password := newPassword.value)
    ensures r.lots == s.lots && r.slots == s.slots && r.bookings == s.bookings
    ensures r.nextUser == s.nextUser && r.nextLot == s.nextLot
    ensures r.nextSlot == s.nextSlot && r.nextBooking == s.nextBooking
  {
    if newPassword.None? || newPassword.value == "" || sessionUser !in s.users then s
    else
      s.(users := s.users[sessionUser := s.users[sessionUser].(password := newPassword.value)])
  }

  /** After a non-empty password change the updated password logs in and a
      different current one no longer does. */
  lemma PasswordChangeTakesEffect(s: Store, username: string, current: string, updated: string)
    requires CheckUser(s, username, current).Some?
    requires updated != "" && updated != current
    ensures CheckUser(UpdatePassword(s, username, Some(updated)), username, updated).Some?
    ensures CheckUser(UpdatePassword(s, username, Some(updated)), username, current).None?
  {
  }

  lemma UpdatePasswordKeepsWf(s: Store, sessionUser: string, newPassword: Option<string>)
    requires Wf(s)
    ensures Wf(UpdatePassword(s, sessionUser, newPassword))
  {
  }
}
